=== FILE: README.md ===
# Generalised rock-paper-scissors: verified model of the game core

This project models the pure logic of `TASK03.py`, a console game of
rock-paper-scissors generalised to any odd number (at least three) of
distinct moves, in which the computer commits to its move with an
HMAC-SHA3-256 before the player chooses and reveals the key afterwards.

Modules:

- `Rules` — `GameRules.compute_rules` / `shift_right`: row 0 is built by
  Python slice assignment, each later row is the previous one rotated right
  by one. The model proves the closed form (cell `[i][j]` depends only on
  `(j - i) mod N`), Draw exactly on the diagonal, `N div 2` Wins and Losses
  per row, antisymmetry, invariance under shifting both moves, that the
  rotation cycle closes, and a non-transitive cycle of three wins.
- `Validation` — `check_moves` and `find_repeat`, returning the list of
  errors instead of printing them and exiting.
- `Help` — `calculate_index_range` and the page clamping of `display_help`.
- `Game` — `start_game`, `generate_move`, `check_input`, `display_result`,
  `get_input` and one pass of `start_round`, with the MAC, the key and the
  computer's random pick as parameters.
- `Seqs`, `Wrappers` — shared sequence facts and a `Result` type.

Cell `[i][j]` of the table is the result for the player choosing move `j`
against the computer's move `i` (the program indexes
`help_data[computer_index][user_index]`). Python's `%` and `//` agree with
Dafny's on the non-negative values used here. The closed form is written
with the forward distance round the list, `Rules.Distance`, proved equal to
`(j - i) mod N` (Dafny's Euclidean remainder).

## Model

| member | source | states |
|---|---|---|
| Rules.FirstRow | TASK03.py:68-75 | row 0 is Draw at column 0, Win at columns 1..N div 2 and Lose after; its length is 2·(N div 2)+1, so it equals N exactly when N is odd |
| Rules.FirstRowCounts | TASK03.py:73-75 | row 0 holds one Draw, N div 2 Wins, N div 2 Loses and no blank cell |
| Rules.ShiftRight | TASK03.py:83-86 | `deque.rotate(1)` keeps the length, moves the last cell to column 0 and every other cell one column right |
| Rules.ShiftRightPermutes | TASK03.py:83-86 | a rotation keeps the multiset of cells |
| Rules.RotatePermutes | TASK03.py:78-79 | any number of successive rotations keeps the multiset of cells |
| Rules.RotateAt | TASK03.py:78-79 | after k rotations column j holds the cell that was k columns to its left, cyclically |
| Rules.RotateFullCircle | TASK03.py:78-79 | rotating a row once per column gives it back |
| Rules.Rows | TASK03.py:78-79 | the first `count` rows built by the loop are row 0 rotated 0, 1, … times |
| Rules.ComputeRules | TASK03.py:67-81 | the table has N rows, row 0 first, each later row the right shift of the one before |
| Rules.DistanceIsMod | TASK03.py:78-79 | the forward distance round the list from move i to move j is (j − i) mod N |
| Rules.ClosedForm | TASK03.py:67-86 | for odd N, cell [i][j] is Draw when j = i, Win when (j − i) mod N is in 1..N div 2, Lose otherwise |
| Rules.ComputeRulesCirculant | TASK03.py:67-86 | for odd N the built table is N×N and every cell follows the closed form |
| Rules.DiagonalIsDraw | TASK03.py:73-79 | in the table a cell is Draw exactly on the diagonal, and no cell is blank |
| Rules.Antisymmetric | TASK03.py:73-79 | for different moves, [i][j] is Win exactly when [j][i] is Lose, and the other way round |
| Rules.ShiftInvariant | TASK03.py:78-79 | moving both moves k places round the list keeps the outcome |
| Rules.RowCounts | TASK03.py:73-79 | every row holds exactly one Draw, N div 2 Wins and N div 2 Loses |
| Rules.LastRowWrapsAround | TASK03.py:78-79 | shifting the last row once more gives row 0 |
| Rules.NotTransitive | TASK03.py:73-79 | stepping N div 2 places round the list gives three wins in a cycle, so "beats" is not transitive |
| Rules.ThreeMoves | TASK03.py:67-81 | for three moves the table is [[Draw, Win, Lose], [Lose, Draw, Win], [Win, Lose, Draw]] |
| Validation.Repeats | TASK03.py:266-268 | keeps, once each, exactly the unseen names of the walked list that occur more than once |
| Validation.FindRepeat | TASK03.py:266-268 | the result lists exactly the names occurring more than once, each once, and is empty exactly when the moves are distinct |
| Validation.RepeatsInFirstOccurrenceOrder | TASK03.py:266-268 | the kept names come in increasing order of first occurrence |
| Validation.FindRepeatOrder | TASK03.py:267-268 | repeated names come in the order `Counter` lists its keys, by first occurrence |
| Validation.CheckMoves | TASK03.py:249-263 | InvalidLength iff fewer than 3 moves, InvalidNumber iff an even non-zero count, RepeatedMoves iff a duplicate, all reported in that order, and no error iff the list is valid |
| Validation.CheckMovesTwoMoves | TASK03.py:251-254 | two distinct moves give both InvalidLength and InvalidNumber |
| Validation.CheckMovesFourMoves | TASK03.py:253-254 | four distinct moves give only InvalidNumber |
| Validation.CheckMovesRepeated | TASK03.py:255-258 | Rock, Rock, Scissors gives only RepeatedMoves carrying Rock once |
| Validation.CheckMovesEmpty | TASK03.py:251-254 | the empty list gives only InvalidLength |
| Seqs.NamesCountIffDistinct | TASK03.py:255 | comparing `len(set(moves))` with `len(moves)` detects exactly the lists with a repetition |
| Seqs.DistinctIffCountsAtMostOne | TASK03.py:255-268 | no repetition exactly when every name is counted at most once, so `find_repeat` and the set test agree |
| Seqs.FirstIndex | TASK03.py:139 | `list.index` returns a position holding the name with no earlier occurrence |
| Help.CalculateIndexRange | TASK03.py:215-218 | page `page` starts at column (page − 1)·size; the end is the smaller of start + size and the total |
| Help.IndexRangeInBounds | TASK03.py:164-174 | on every page the loop can reach, 0 ≤ start ≤ end ≤ total and end − start ≤ size |
| Help.LastPageEmptyIff | TASK03.py:215-218 | the last reachable page is empty exactly when the total is a multiple of the page size |
| Help.EveryColumnOnOnePage | TASK03.py:215-218 | every column is shown on exactly one reachable page, page c div size + 1 |
| Help.Turn | TASK03.py:171-178 | `>` goes one page on, and on the last page stays there; `<` goes one back, and on page 1 stays there; other input keeps the page; the reachable range is kept |
| Help.Browse | TASK03.py:166-178 | each page shown after the first is the turn of the page before it under the request read there, no request before the last page shown is `0`, the loop stops only at `0` or when the requests run out, and the pages stay within the reachable range when the start does |
| Help.DisplayHelp | TASK03.py:164-178 | help opens on page 1; each later page is the turn of the one before under the request read there, the loop stops only at `0` or when the requests run out, and every shown page's column range lies inside the table and holds at most 7 columns |
| Game.StartGame | TASK03.py:271-273 | a session starts exactly for a valid move list, with the circulant table of its size; otherwise all errors are returned |
| Game.GenerateMove | TASK03.py:97-101 | the computer's move is the move at the drawn position, hence one of the moves, the published HMAC verifies against it under the round's key, and the round waits for the player |
| Game.DisplayResult | TASK03.py:135-145 | the looked-up cell is the closed-form outcome for the computer's unique position and the player's index, never blank |
| Game.CheckInput | TASK03.py:123-133 | a number k is accepted iff 1 ≤ k ≤ N, recording index k − 1 and its outcome with the commitment unchanged; otherwise InvalidOption or InvalidInputForm |
| Game.GetInput | TASK03.py:111-121 | an accepted round keeps its commitment, is resolved with an in-range index and its closed-form outcome, and some entry chose that index |
| Game.FirstAcceptedDecides | TASK03.py:111-133 | help requests and rejected entries before the first accepted one change nothing: that entry decides the round |
| Game.ExitBeforeAnswer | TASK03.py:115-116 | a `0` before any accepted entry ends the game |
| Game.VerifyAcceptsOnlyCommitted | TASK03.py:52-54 | when no two of the session's moves collide under the round's key, the digest committed for one move verifies a revealed move of the session exactly when it is that same move |
| Game.PlayRound | TASK03.py:190-194 | a decided round's result is the closed-form outcome of the player's index against the computer's pick; the round still holds the HMAC published before the player chose, and the revealed move and key reproduce it |
| Game.PaperBeatsRock | TASK03.py:139-145 | computer Rock against the player's option 2, Paper, is a Win for the player |

## Left out

- HMAC-SHA3-256, hex encoding and `secrets.token_hex` (TASK03.py:37-49): cryptographic and random primitives; the MAC is a function parameter and the key an input; hiding is not stated, and binding is assumed, as "no collision among the session's moves under the round's key", only as the hypothesis of `Game.VerifyAcceptsOnlyCommitted`.
- `random.choice` (TASK03.py:98): the computer's pick is an index parameter.
- End of input (TASK03.py:114): the program has no such outcome; `input()` raises `EOFError` and the program stops with a traceback. `NoMoreInput` stands for that end of input, so that `GetInput` is total over a finite list of entries.
- `verify_hmac`'s printing (TASK03.py:52-59) and its commented-out call (TASK03.py:195): only the comparison is modelled, as `VerifyHmac`.
- Printing, `input`, `tabulate` tables and ANSI colours (`display_menu`, `display_link`, `generate_help_table`, `generate_headers`, `generate_rows`, `color_row`, the error messages' text): presentation only.
- `display_help`'s own reads (TASK03.py:118, 170): in `GetInput` a whole help session is one `AskHelp` entry, because browsing help changes no round state; the paging itself is modelled by `Help.DisplayHelp`.
- `prompt_user` and the repetition of rounds in `start_round` (TASK03.py:180-198): one pass of the loop is `PlayRound`; a new round is a new call with a fresh key.
- `exit_game`, `sys.exit` and reading `sys.argv` (TASK03.py:277-283): process plumbing; `CheckMoves` returns the errors instead of exiting.
- `int()` parsing in `check_input`: entries arrive already parsed as a number or as not a number.
- Rules.ComputeRules: requires at least one move, because on an empty list the program fails indexing row 0; `check_moves` rejects that list first.
- Rules.ShiftInvariant: stated for shifts 0 ≤ k < N; any other shift is one of these modulo N.
- The tables the program would build for an even number of moves (rows of N + 1 cells) are only described by `FirstRow`'s length; `check_moves` rejects those lists before any table is built.

=== FILE: game.dfy ===
/**
  One game session of the `Game` class and `start_game` (TASK03.py:89-198,
  271-274): the move list is checked and the table built once, then each
  round commits to the computer's move with a keyed MAC, reads the player's
  menu choices until one is valid, looks the result up in the table and
  reveals the key.
*/
module Game {
  import opened Wrappers
  import opened Seqs
  import Rules
  import Validation

  type Move = Validation.Move

  /** The hexadecimal HMAC key (`secrets.token_hex(32)`) and digest. */
  type Key = string
  type Digest = string

  /**
    The keyed MAC, HMAC-SHA3-256 of the move's UTF-8 bytes in the program,
    taken as a parameter: `Mac(move, key)` is `calculate_hmac(move, key)`.
  */
  type Mac = (Move, Key) -> Digest

  /** The move list and the outcome table built from it. */
  datatype Session = Session(moves: seq<Move>, table: Rules.Table)

  /** A session that passed the move check, with the circulant table of its size. */
  ghost predicate Ready(g: Session) {
    Validation.ValidMoveSet(g.moves) && Rules.Circulant(g.table, |g.moves|)
  }

  /**
    `start_game` up to the first round: a move list that fails the check
    yields every error found; otherwise the session holds the list and the
    table `compute_rules` builds for it.
  */
  function StartGame(moves: seq<Move>): (r: Result<Session, seq<Validation.MoveError>>)
    ensures r.Success? <==> Validation.ValidMoveSet(moves)
    ensures r.Success? ==> r.value.moves == moves && Ready(r.value)
    ensures r.Failure? ==> r.error != [] && r.error == Validation.CheckMoves(moves)
  {
    var errors := Validation.CheckMoves(moves);
    if errors != [] then Failure(errors)
    else
      Rules.ComputeRulesCirculant(|moves|);
      Success(Session(moves, Rules.ComputeRules(|moves|)))
  }

  /** Where a round is: waiting for the player, or decided with the player's index and result. */
  datatype Phase = AwaitingMove | Resolved(userIndex: nat, outcome: Rules.Outcome)

  /** One round: the key, the computer's move and its published HMAC, and the phase. */
  datatype Round = Round(key: Key, computerMove: Move, hmac: Digest, phase: Phase)

  /** Two rounds carry the same commitment: key, computer move and HMAC. */
  predicate SameCommitment(a: Round, b: Round) {
    a.key == b.key && a.computerMove == b.computerMove && a.hmac == b.hmac
  }

  /**
    `generate_move` after the key is drawn: the computer's move is the
    `choice`-th move (the program draws it with `random.choice`) and the HMAC
    of that move under `key` is published before the player is asked.
  */
  function GenerateMove(g: Session, key: Key, choice: nat, mac: Mac): (r: Round)
    requires choice < |g.moves|
    ensures r.computerMove in g.moves && r.computerMove == g.moves[choice]
    ensures r.phase == AwaitingMove
    ensures r.key == key && VerifyHmac(r.computerMove, r.key, r.hmac, mac)
  {
    var move := g.moves[choice];
    Round(key, move, mac(move, key), AwaitingMove)
  }

  /** `verify_hmac`: whether recomputing the HMAC of `move` under `key` gives `expected`. */
  function VerifyHmac(move: Move, key: Key, expected: Digest, mac: Mac): bool {
    mac(move, key) == expected
  }

  /**
    When the MAC is binding on the session's moves (under the round's key, no
    two of them share a digest), the digest committed for `m'` verifies for the
    revealed move `m` exactly when `m` is the committed move: the published
    move always passes and no other move can be substituted after the fact.
  */
  lemma VerifyAcceptsOnlyCommitted(g: Session, m: Move, m': Move, key: Key, mac: Mac)
    requires m in g.moves && m' in g.moves
    requires forall a, b :: a in g.moves && b in g.moves && a != b ==> mac(a, key) != mac(b, key)
    ensures VerifyHmac(m, key, mac(m', key), mac) <==> m == m'
  {
  }

  /**
    `display_result`'s lookup: row `moves.index(computer_move)`, column the
    player's index. Since moves are distinct, that row is the computer move's
    only position, and the cell is the closed-form outcome for the pair; it is
    never blank, so the result message lookup always succeeds.
  */
  function DisplayResult(g: Session, r: Round, userIndex: int): (o: Rules.Outcome)
    requires Ready(g) && r.computerMove in g.moves
    requires 0 <= userIndex < |g.moves|
    ensures forall c :: 0 <= c < |g.moves| && g.moves[c] == r.computerMove ==>
      o == Rules.Expected(|g.moves|, c, userIndex)
    ensures o != Rules.Empty
  {
    var c := FirstIndex(g.moves, r.computerMove);
    forall c' | 0 <= c' < |g.moves| && g.moves[c'] == r.computerMove ensures c' == c {
      FirstIndexUnique(g.moves, c');
    }
    Rules.DiagonalIsDraw(g.table, |g.moves|, c, userIndex);
    g.table[c][userIndex]
  }

  /** A menu entry after `int()` parsing: a number, or text that is not one. */
  datatype Entry = Number(value: int) | NotANumber

  /** The two ways `check_input` rejects an entry. */
  datatype InputError = InvalidOption | InvalidInputForm

  /**
    `check_input`: a number `k` is accepted exactly when `1 <= k <= N`; the
    round then records index `k - 1` and its result and keeps its commitment.
    A rejected entry reports why and leaves the round as it was.
  */
  function CheckInput(g: Session, r: Round, entry: Entry): (res: Result<Round, InputError>)
    requires Ready(g) && r.computerMove in g.moves
    ensures res.Success? <==> entry.Number? && 1 <= entry.value <= |g.moves|
    ensures entry.NotANumber? ==> res == Failure(InvalidInputForm)
    ensures entry.Number? && !(1 <= entry.value <= |g.moves|) ==> res == Failure(InvalidOption)
    ensures res.Success? ==>
      && SameCommitment(res.value, r)
      && res.value.phase.Resolved?
      && res.value.phase.userIndex == entry.value - 1
      && res.value.phase.outcome == Rules.Expected(|g.moves|, FirstIndex(g.moves, r.computerMove), entry.value - 1)
  {
    match entry
    case NotANumber => Failure(InvalidInputForm)
    case Number(k) =>
      var userIndex := k - 1;
      if 0 <= userIndex < |g.moves| then
        Success(r.(phase := Resolved(userIndex, DisplayResult(g, r, userIndex))))
      else Failure(InvalidOption)
  }

  /** What the player types at the move menu: `0`, `?`, or anything else. */
  datatype MenuEntry = ExitGame | AskHelp | Choose(entry: Entry)

  /** How `get_input` ends: the player quit, a move was accepted, or the entries ran out. */
  datatype InputResult = Exited | Answered(round: Round) | NoMoreInput

  /** An entry the menu loop reads and then prompts again after. */
  predicate Reprompts(g: Session, r: Round, e: MenuEntry)
    requires Ready(g) && r.computerMove in g.moves
  {
    e == AskHelp || (e.Choose? && CheckInput(g, r, e.entry).Failure?)
  }

  /**
    `get_input`: reads menu entries in order; `0` quits, `?` shows help and
    asks again, anything else goes to `check_input` and the loop ends at the
    first accepted entry. The round's commitment is never touched.
  */
  function GetInput(g: Session, r: Round, entries: seq<MenuEntry>): (res: InputResult)
    requires Ready(g) && r.computerMove in g.moves
    ensures res.Answered? ==> SameCommitment(res.round, r) && res.round.phase.Resolved?
    ensures res.Answered? ==>
      && res.round.phase.userIndex < |g.moves|
      && res.round.phase.outcome == Rules.Expected(|g.moves|, FirstIndex(g.moves, r.computerMove), res.round.phase.userIndex)
    ensures res.Answered? ==>
      exists p :: 0 <= p < |entries| && entries[p] == Choose(Number(res.round.phase.userIndex + 1))
    decreases |entries|
  {
    if |entries| == 0 then NoMoreInput
    else
      match entries[0]
      case ExitGame => Exited
      case AskHelp => GetInput(g, r, entries[1..])
      case Choose(e) =>
        match CheckInput(g, r, e)
        case Success(decided) => Answered(decided)
        case Failure(_) =>
          var res := GetInput(g, r, entries[1..]);
          assert res.Answered? ==> exists p :: 0 <= p < |entries| - 1 && entries[1..][p] == Choose(Number(res.round.phase.userIndex + 1));
          res
  }

  /**
    Help requests and rejected entries before the first accepted one change
    nothing: the accepted entry alone decides the round.
  */
  lemma {:induction false} FirstAcceptedDecides(g: Session, r: Round, entries: seq<MenuEntry>, p: int)
    requires Ready(g) && r.computerMove in g.moves
    requires 0 <= p < |entries| && entries[p].Choose?
    requires CheckInput(g, r, entries[p].entry).Success?
    requires forall q :: 0 <= q < p ==> Reprompts(g, r, entries[q])
    ensures GetInput(g, r, entries) == Answered(CheckInput(g, r, entries[p].entry).value)
  {
    if p > 0 {
      assert Reprompts(g, r, entries[0]);
      var rest := entries[1..];
      forall q | 0 <= q < p - 1 ensures Reprompts(g, r, rest[q]) {
        assert rest[q] == entries[q + 1];
      }
      FirstAcceptedDecides(g, r, rest, p - 1);
    }
  }

  /** A `0` before any accepted entry ends the game without a result. */
  lemma {:induction false} ExitBeforeAnswer(g: Session, r: Round, entries: seq<MenuEntry>, p: int)
    requires Ready(g) && r.computerMove in g.moves
    requires 0 <= p < |entries| && entries[p] == ExitGame
    requires forall q :: 0 <= q < p ==> Reprompts(g, r, entries[q])
    ensures GetInput(g, r, entries) == Exited
  {
    if p > 0 {
      assert Reprompts(g, r, entries[0]);
      var rest := entries[1..];
      forall q | 0 <= q < p - 1 ensures Reprompts(g, r, rest[q]) {
        assert rest[q] == entries[q + 1];
      }
      ExitBeforeAnswer(g, r, rest, p - 1);
    }
  }

  /**
    One pass of `start_round`'s loop: draw the computer's move `choice` under a
    fresh `key`, publish the HMAC, then read the player's entries. When a move
    is accepted, the result is the closed-form outcome of the player's move
    against the computer's, and the revealed move and key reproduce the HMAC
    published before the player chose.
  */
  function PlayRound(g: Session, key: Key, choice: nat, entries: seq<MenuEntry>, mac: Mac): (res: InputResult)
    requires Ready(g) && choice < |g.moves|
    ensures res.Answered? ==>
      var decided := res.round;
      && decided.phase.Resolved?
      && decided.phase.userIndex < |g.moves|
      && decided.phase.outcome == Rules.Expected(|g.moves|, choice, decided.phase.userIndex)
      && decided.computerMove == g.moves[choice]
      && decided.key == key
      && decided.hmac == GenerateMove(g, key, choice, mac).hmac
      && VerifyHmac(decided.computerMove, decided.key, decided.hmac, mac)
  {
    var r := GenerateMove(g, key, choice, mac);
    FirstIndexUnique(g.moves, choice);
    GetInput(g, r, entries)
  }

  /** Rock, Paper, Scissors: the computer plays Rock and the player picks option 2, Paper, and wins. */
  lemma PaperBeatsRock(key: Key, mac: Mac)
    ensures var g := StartGame(["Rock", "Paper", "Scissors"]);
      && g.Success?
      && var res := PlayRound(g.value, key, 0, [Choose(Number(2))], mac);
      && res.Answered?
      && res.round.phase == Resolved(1, Rules.Win)
  {
    var moves := ["Rock", "Paper", "Scissors"];
    assert Distinct(moves);
    assert Validation.ValidMoveSet(moves);
    var started := StartGame(moves);
    assert started.Success?;
    var g := started.value;
    var r := GenerateMove(g, key, 0, mac);
    assert r.computerMove == "Rock";
    assert FirstIndex(moves, "Rock") == 0;
    var checked := CheckInput(g, r, Number(2));
    assert checked.Success?;
    assert checked.value.phase == Resolved(1, Rules.Expected(3, 0, 1));
    assert (1 - 0) % 3 == 1;
    assert GetInput(g, r, [Choose(Number(2))]) == Answered(checked.value);
  }
}

=== FILE: help.dfy ===
/**
  Paging of the help table: `HelpTableGenerator.calculate_index_range`
  (TASK03.py:214-218) and the page clamping of `Game.display_help`
  (TASK03.py:164-178). A page shows the columns `[start, end)` of the table.
*/
module Help {

  /** Number of move columns per help page (TASK03.py:165). */
  const PageSize: nat := 7

  /** The highest page the help loop lets the player reach, also shown as "Page p of …". */
  function LastPage(total: nat, size: nat): nat
    requires size > 0
  {
    total / size + 1
  }

  /** A pair of column bounds, `start` inclusive and `end` exclusive. */
  datatype Range = Range(start: int, end: int)

  /**
    `calculate_index_range`: page `page` (counted from 1) starts at column
    `(page - 1) * size` and ends `size` columns later or at the last column,
    whichever comes first.
  */
  function CalculateIndexRange(page: int, size: int, total: int): (r: Range)
    ensures r.end <= total && r.end <= r.start + size
    ensures r.end == total || r.end == r.start + size
    ensures r.start == (page - 1) * size
  {
    var start := (page - 1) * size;
    Range(start, if start + size <= total then start + size else total)
  }

  /**
    Within the pages the help loop can reach, the range lies inside the table
    and holds at most `size` columns.
  */
  lemma IndexRangeInBounds(page: int, size: int, total: int)
    requires size > 0 && total >= 0
    requires 1 <= page <= LastPage(total, size)
    ensures var r := CalculateIndexRange(page, size, total);
      0 <= r.start <= r.end <= total && r.end - r.start <= size
  {
    var q := total / size;
    assert (page - 1) * size <= q * size by {
      assert page - 1 <= q;
      MulMonotone(page - 1, q, size);
    }
    assert q * size <= total;
    assert 0 <= (page - 1) * size by {
      MulMonotone(0, page - 1, size);
    }
  }

  lemma MulMonotone(a: int, b: int, c: int)
    requires a <= b && c >= 0
    ensures a * c <= b * c
  {
    assert b * c - a * c == (b - a) * c;
  }

  /** The last reachable page is empty exactly when the moves fill the earlier pages completely. */
  lemma LastPageEmptyIff(size: int, total: int)
    requires size > 0 && total >= 0
    ensures var r := CalculateIndexRange(LastPage(total, size), size, total);
      r.start == r.end <==> total % size == 0
  {
    var q := total / size;
    assert total == q * size + total % size;
  }

  /** Every column of the table is shown on exactly one reachable page, page `c / size + 1`. */
  lemma EveryColumnOnOnePage(size: int, total: int, c: int)
    requires size > 0 && total >= 0 && 0 <= c < total
    ensures 1 <= c / size + 1 <= LastPage(total, size)
    ensures forall page :: 1 <= page <= LastPage(total, size) ==>
      (var r := CalculateIndexRange(page, size, total); r.start <= c < r.end <==> page == c / size + 1)
  {
    var p := c / size + 1;
    assert c == (p - 1) * size + c % size;
    DivMonotone(c, total, size);
    forall page | 1 <= page <= LastPage(total, size)
      ensures var r := CalculateIndexRange(page, size, total); r.start <= c < r.end <==> page == p
    {
      var r := CalculateIndexRange(page, size, total);
      if page < p {
        MulMonotone(page, p - 1, size);
        assert r.end <= page * size <= c;
      } else if page > p {
        MulMonotone(p, page - 1, size);
        assert r.start >= p * size > c;
      } else {
        assert r.start <= c;
        assert c < r.start + size;
      }
    }
  }

  lemma DivMonotone(a: int, b: int, n: int)
    requires 0 <= a <= b && n > 0
    ensures a / n <= b / n
  {
    if a / n > b / n {
      MulMonotone(b / n + 1, a / n, n);
    }
  }

  /** What the player can type in the help loop. */
  datatype HelpRequest = NextPage | PreviousPage | ExitHelp | Unrecognised

  /**
    One turn of the help loop: `>` moves on but never past the last page, `<`
    moves back but never before page 1, anything else keeps the page.
  */
  function Turn(page: int, request: HelpRequest, total: nat, size: nat): (p: int)
    requires size > 0
    ensures 1 <= page <= LastPage(total, size) ==> 1 <= p <= LastPage(total, size)
    ensures request == NextPage && page < LastPage(total, size) ==> p == page + 1
    ensures request == PreviousPage && page > 1 ==> p == page - 1
    ensures !(request == NextPage || request == PreviousPage) ==> p == page
    ensures request == NextPage && page >= LastPage(total, size) ==> p == LastPage(total, size)
    ensures request == PreviousPage && page <= 1 ==> p == 1
  {
    match request
    case NextPage => if page + 1 <= LastPage(total, size) then page + 1 else LastPage(total, size)
    case PreviousPage => if page - 1 >= 1 then page - 1 else 1
    case _ => page
  }

  /**
    The pages displayed by the help loop from page `page` on, given the
    player's requests in order: it shows a page, reads a request, and stops at
    `ExitHelp` (or when no request is left).
  */
  function Browse(page: int, requests: seq<HelpRequest>, total: nat, size: nat): (shown: seq<int>)
    requires size > 0
    ensures |shown| >= 1 && shown[0] == page
    ensures 1 <= page <= LastPage(total, size) ==>
      forall k :: 0 <= k < |shown| ==> 1 <= shown[k] <= LastPage(total, size)
    ensures |shown| <= |requests| + 1
    ensures forall k :: 0 <= k < |shown| - 1 ==>
      requests[k] != ExitHelp && shown[k + 1] == Turn(shown[k], requests[k], total, size)
    ensures |shown| == |requests| + 1 || requests[|shown| - 1] == ExitHelp
    decreases |requests|
  {
    if |requests| == 0 || requests[0] == ExitHelp then [page]
    else [page] + Browse(Turn(page, requests[0], total, size), requests[1..], total, size)
  }

  /** `display_help`: the help loop starts at page 1 and only ever shows pages it can fill from the table. */
  function DisplayHelp(requests: seq<HelpRequest>, total: nat): (shown: seq<int>)
    ensures |shown| >= 1 && shown[0] == 1
    ensures |shown| <= |requests| + 1
    ensures forall k :: 0 <= k < |shown| - 1 ==>
      requests[k] != ExitHelp && shown[k + 1] == Turn(shown[k], requests[k], total, PageSize)
    ensures |shown| == |requests| + 1 || requests[|shown| - 1] == ExitHelp
    ensures forall k :: 0 <= k < |shown| ==>
      var r := CalculateIndexRange(shown[k], PageSize, total);
      0 <= r.start <= r.end <= total && r.end - r.start <= PageSize
  {
    var shown := Browse(1, requests, total, PageSize);
    assert forall k :: 0 <= k < |shown| ==> 1 <= shown[k] <= LastPage(total, PageSize);
    forall k | 0 <= k < |shown| ensures
      var r := CalculateIndexRange(shown[k], PageSize, total);
      0 <= r.start <= r.end <= total && r.end - r.start <= PageSize
    {
      IndexRangeInBounds(shown[k], PageSize, total);
    }
    shown
  }
}

=== FILE: rules.dfy ===
/**
  The outcome table of `GameRules` (TASK03.py:62-86): a circulant
  "balanced rock-paper-scissors" relation over the positions of an ordered
  list of moves. Cell [i][j] is the result for the player who picks move j
  against the computer's move i.
*/
module Rules {

  /** A table cell. `Empty` is the blank string every cell holds before it is filled in. */
  datatype Outcome = Empty | Draw | Win | Lose

  type Row = seq<Outcome>
  type Table = seq<Row>

  // Euclidean remainder facts used by the closed form (Dafny's `%` never goes
  // negative, which is the `mod N` of the table's cyclic distance).

  /** The remainder of a value at most one modulus away from `[0, n)`. */
  lemma ModOfSmall(x: int, n: int)
    requires n > 0 && -n <= x < 2 * n
    ensures x % n == if x < 0 then x + n else if x < n then x else x - n
  {
    if x < 0 {
      ModOneStep(x, n, -1);
    } else if x < n {
      ModOneStep(x, n, 0);
    } else {
      ModOneStep(x, n, 1);
    }
  }

  /** If `x - k * n` lies in `[0, n)` for `k` one of -1, 0, 1, it is the remainder of `x`. */
  lemma ModOneStep(x: int, n: int, k: int)
    requires n > 0 && -1 <= k <= 1 && 0 <= x - k * n < n
    ensures x % n == x - k * n
  {
    var q, m := x / n, x % n;
    assert (q - k) * n == (x - k * n) - m;
  }

  // Building row 0 (TASK03.py:68-75)

  /** `k` copies of `x`, Python's `[x] * k`. */
  function Repeat(x: Outcome, k: nat): (r: Row)
    ensures |r| == k
    ensures forall i :: 0 <= i < k ==> r[i] == x
  {
    seq(k, _ => x)
  }

  lemma {:induction false} RepeatCount(x: Outcome, k: nat)
    ensures multiset(Repeat(x, k)) == multiset{}[x := k]
  {
    if k > 0 {
      RepeatCount(x, k - 1);
      assert Repeat(x, k) == Repeat(x, k - 1) + [x];
    } else {
      assert Repeat(x, 0) == [];
    }
  }

  /** Python's slice assignment `s[lo:hi] = t` for in-range bounds. */
  function SliceAssign(s: Row, lo: nat, hi: nat, t: Row): (r: Row)
    requires lo <= hi <= |s|
    ensures |r| == |s| - (hi - lo) + |t|
    ensures r[..lo] == s[..lo] && r[lo..lo + |t|] == t && r[lo + |t|..] == s[hi..]
  {
    s[..lo] + t + s[hi..]
  }

  /**
    Row 0 as lines 70-75 build it: a row of `n` blanks, `Draw` written into
    column 0, then the slice `[1:half+1]` replaced by `half` Wins and the tail
    `[half+1:]` by `half` Loses. For odd `n` the row keeps its length; for even
    `n` the tail has only `half - 1` cells, so the row grows to `n + 1`.
  */
  function FirstRow(n: nat): (r: Row)
    requires n >= 1
    ensures |r| == 2 * (n / 2) + 1
    ensures |r| == n <==> n % 2 == 1
    ensures r[0] == Draw
    ensures forall k :: 1 <= k <= n / 2 ==> r[k] == Win
    ensures forall k :: n / 2 < k < |r| ==> r[k] == Lose
  {
    var half := n / 2;
    var drawn := Repeat(Empty, n)[0 := Draw];
    var won := SliceAssign(drawn, 1, half + 1, Repeat(Win, half));
    SliceAssign(won, half + 1, |won|, Repeat(Lose, half))
  }

  /** Row 0 holds one Draw, `n / 2` Wins, `n / 2` Loses and no blank. */
  lemma FirstRowCounts(n: nat)
    requires n >= 1
    ensures multiset(FirstRow(n)) == multiset{Draw}[Win := n / 2][Lose := n / 2]
  {
    var half := n / 2;
    var r := FirstRow(n);
    assert r == [Draw] + Repeat(Win, half) + Repeat(Lose, half);
    RepeatCount(Win, half);
    RepeatCount(Lose, half);
  }

  // Rotation (TASK03.py:83-86)

  /**
    `shift_right`: `deque.rotate(1)`, the last cell moves to column 0 and every
    other cell moves one column to the right.
  */
  function ShiftRight(row: Row): (r: Row)
    ensures |r| == |row|
    ensures |row| > 0 ==> r[0] == row[|row| - 1]
    ensures forall k :: 1 <= k < |row| ==> r[k] == row[k - 1]
  {
    if |row| == 0 then row
    else [row[|row| - 1]] + row[..|row| - 1]
  }

  /** A shift only reorders the cells. */
  lemma ShiftRightPermutes(row: Row)
    ensures multiset(ShiftRight(row)) == multiset(row)
  {
    if |row| > 0 {
      var last := |row| - 1;
      assert row == row[..last] + [row[last]];
      assert ShiftRight(row) == [row[last]] + row[..last];
    }
  }

  /** `row` shifted right `k` times. */
  function Rotate(row: Row, k: nat): (r: Row)
    ensures |r| == |row|
  {
    if k == 0 then row else ShiftRight(Rotate(row, k - 1))
  }

  /** Any number of shifts only reorders the cells. */
  lemma {:induction false} RotatePermutes(row: Row, k: nat)
    ensures multiset(Rotate(row, k)) == multiset(row)
  {
    if k > 0 {
      RotatePermutes(row, k - 1);
      ShiftRightPermutes(Rotate(row, k - 1));
    }
  }

  /** After `k` right shifts, column `j` holds what was `k` columns to its left, going round the row. */
  lemma {:induction false} RotateAt(row: Row, k: nat, j: int)
    requires k <= |row| && 0 <= j < |row|
    ensures Rotate(row, k)[j] == row[if j >= k then j - k else j - k + |row|]
  {
    if k > 0 {
      var m := |row|;
      var prev := Rotate(row, k - 1);
      var cur := ShiftRight(prev);
      assert Rotate(row, k) == cur;
      if j == 0 {
        RotateAt(row, k - 1, m - 1);
        assert prev[m - 1] == row[m - k];
        assert cur[0] == prev[m - 1];
      } else {
        RotateAt(row, k - 1, j - 1);
        assert cur[j] == prev[j - 1];
      }
    }
  }

  /** Rotating a row once per column gives the row back. */
  lemma {:induction false} RotateFullCircle(row: Row)
    ensures Rotate(row, |row|) == row
  {
    var r := Rotate(row, |row|);
    forall j | 0 <= j < |row| ensures r[j] == row[j] {
      RotateAt(row, |row|, j);
    }
    assert |r| == |row|;
  }

  // The table (TASK03.py:67-81)

  /** The first `count` rows, each produced from the one before by `ShiftRight`, as lines 78-79 do. */
  function Rows(n: nat, count: nat): (t: Table)
    requires n >= 1 && 1 <= count
    ensures |t| == count
    ensures forall i :: 0 <= i < count ==> t[i] == Rotate(FirstRow(n), i)
  {
    if count == 1 then [FirstRow(n)]
    else
      var t := Rows(n, count - 1);
      t + [ShiftRight(t[count - 2])]
  }

  /**
    `compute_rules`: row 0 from `FirstRow`, then every later row is the
    previous one shifted right. The program crashes on an empty move list
    (it indexes row 0 of an empty table), so at least one move is required.
  */
  function ComputeRules(n: nat): (t: Table)
    requires n >= 1
    ensures |t| == n
    ensures t[0] == FirstRow(n)
    ensures forall i :: 1 <= i < n ==> t[i] == ShiftRight(t[i - 1])
    ensures forall i :: 0 <= i < n ==> |t[i]| == 2 * (n / 2) + 1
  {
    Rows(n, n)
  }

  // Closed form and its consequences

  /** How many places forward from move `i` one goes round the list of `n` moves to reach move `j`. */
  function Distance(n: nat, i: int, j: int): (d: nat)
    requires 0 <= i < n && 0 <= j < n
    ensures d < n && (d == 0 <==> i == j)
  {
    if i <= j then j - i else j - i + n
  }

  /** The forward distance is the remainder `(j - i) mod n`. */
  lemma DistanceIsMod(n: nat, i: int, j: int)
    requires 0 <= i < n && 0 <= j < n
    ensures Distance(n, i, j) == (j - i) % n
  {
    ModOfSmall(j - i, n);
  }

  /**
    What the player gets with move `j` against the computer's move `i`: a
    Draw on equal moves, a Win when `j` lies 1..n/2 places after `i` going
    round the list, and a Lose otherwise.
  */
  function Expected(n: nat, i: int, j: int): Outcome
    requires 0 <= i < n && 0 <= j < n
  {
    var d := Distance(n, i, j);
    if d == 0 then Draw else if d <= n / 2 then Win else Lose
  }

  /** An `n` by `n` table whose every cell follows the closed form. */
  ghost predicate Circulant(t: Table, n: nat)
    requires n >= 1
  {
    && |t| == n
    && (forall i :: 0 <= i < n ==> |t[i]| == n)
    && (forall i, j :: 0 <= i < n && 0 <= j < n ==> t[i][j] == Expected(n, i, j))
  }

  /** Closed form of `compute_rules` for an odd number of moves, by induction over the rotations. */
  lemma ClosedForm(n: nat, i: int, j: int)
    requires n % 2 == 1
    requires 0 <= i < n && 0 <= j < n
    ensures |ComputeRules(n)[i]| == n
    ensures ComputeRules(n)[i][j] == Expected(n, i, j)
  {
    var row0 := FirstRow(n);
    RotateAt(row0, i, j);
    assert ComputeRules(n)[i][j] == row0[Distance(n, i, j)];
  }

  /** For an odd number of moves the table built by the program is exactly the circulant relation. */
  lemma ComputeRulesCirculant(n: nat)
    requires n % 2 == 1
    ensures Circulant(ComputeRules(n), n)
  {
    forall i, j | 0 <= i < n && 0 <= j < n
      ensures |ComputeRules(n)[i]| == n && ComputeRules(n)[i][j] == Expected(n, i, j)
    {
      ClosedForm(n, i, j);
    }
  }

  /** Draw exactly on the diagonal, and no blank cell survives. */
  lemma DiagonalIsDraw(t: Table, n: nat, i: int, j: int)
    requires n >= 1 && Circulant(t, n)
    requires 0 <= i < n && 0 <= j < n
    ensures t[i][j] == Draw <==> i == j
    ensures t[i][j] != Empty
  {
  }

  /** For different moves, one side wins exactly when the other loses. */
  lemma Antisymmetric(t: Table, n: nat, i: int, j: int)
    requires n % 2 == 1 && Circulant(t, n)
    requires 0 <= i < n && 0 <= j < n && i != j
    ensures t[i][j] == Win <==> t[j][i] == Lose
    ensures t[i][j] == Lose <==> t[j][i] == Win
  {
  }

  /** Moving both moves the same number of places round the list keeps the outcome. */
  lemma ShiftInvariant(t: Table, n: nat, i: int, j: int, k: int)
    requires n >= 1 && Circulant(t, n)
    requires 0 <= i < n && 0 <= j < n && 0 <= k < n
    ensures t[i][j] == t[(i + k) % n][(j + k) % n]
  {
    ModOfSmall(i + k, n);
    ModOfSmall(j + k, n);
  }

  /** Every row of the program's table holds one Draw, `n / 2` Wins and `n / 2` Loses. */
  lemma RowCounts(n: nat, i: int)
    requires n % 2 == 1 && 0 <= i < n
    ensures multiset(ComputeRules(n)[i])[Draw] == 1
    ensures multiset(ComputeRules(n)[i])[Win] == n / 2
    ensures multiset(ComputeRules(n)[i])[Lose] == n / 2
    ensures multiset(ComputeRules(n)[i])[Empty] == 0
  {
    FirstRowCounts(n);
    RotatePermutes(FirstRow(n), i);
  }

  /** Shifting the last row once more yields row 0: the rows form a full cycle. */
  lemma LastRowWrapsAround(n: nat)
    requires n % 2 == 1
    ensures ShiftRight(ComputeRules(n)[n - 1]) == ComputeRules(n)[0]
  {
    RotateFullCircle(FirstRow(n));
  }

  /**
    The relation "move j beats move i" is not transitive: going round the list
    in steps of n / 2 gives a cycle of three wins, while the first move does
    not beat the third.
  */
  lemma NotTransitive(t: Table, n: nat)
    requires n % 2 == 1 && n >= 3 && Circulant(t, n)
    ensures var h := n / 2;
      t[0][h] == Win && t[h][2 * h] == Win && t[2 * h][0] == Win && t[0][2 * h] == Lose
  {

  }

  /** Classic rock-paper-scissors, moves ordered Rock, Paper, Scissors. */
  lemma ThreeMoves()
    ensures ComputeRules(3) == [[Draw, Win, Lose], [Lose, Draw, Win], [Win, Lose, Draw]]
  {
    var r0 := FirstRow(3);
    assert r0 == [Draw, Win, Lose] by {
      assert |r0| == 3 && r0[0] == Draw && r0[1] == Win && r0[2] == Lose;
    }
    var r1 := ShiftRight(r0);
    assert r1 == [Lose, Draw, Win] by {
      assert |r1| == 3 && r1[0] == Lose && r1[1] == Draw && r1[2] == Win;
    }
    var r2 := ShiftRight(r1);
    assert r2 == [Win, Lose, Draw] by {
      assert |r2| == 3 && r2[0] == Win && r2[1] == Lose && r2[2] == Draw;
    }
    var t := ComputeRules(3);
    assert t[0] == r0 && t[1] == r1 && t[2] == r2;
  }
}

=== FILE: seqs.dfy ===
/** Facts about sequences of names shared by the validation and the round logic. */
module Seqs {

  /** No name occurs twice. */
  predicate Distinct<T(==)>(s: seq<T>) {
    forall i, j :: 0 <= i < j < |s| ==> s[i] != s[j]
  }

  /** The set of names in `s`, Python's `set(moves)`. */
  function Names<T(==)>(s: seq<T>): set<T> {
    set x | x in s
  }

  /** Position of the first occurrence of `x`, Python's `list.index`. */
  function FirstIndex<T(==)>(s: seq<T>, x: T): (k: nat)
    requires x in s
    ensures k < |s| && s[k] == x
    ensures forall j :: 0 <= j < k ==> s[j] != x
  {
    if s[0] == x then 0 else 1 + FirstIndex(s[1..], x)
  }

  /** In a sequence without repetitions, the first occurrence is the only one. */
  lemma FirstIndexUnique<T>(s: seq<T>, k: int)
    requires Distinct(s) && 0 <= k < |s|
    ensures FirstIndex(s, s[k]) == k
  {
  }

  /** Never more names than entries. */
  lemma {:induction false} NamesBound<T>(s: seq<T>)
    ensures |Names(s)| <= |s|
  {
    if |s| > 0 {
      NamesBound(s[1..]);
      assert Names(s) == {s[0]} + Names(s[1..]);
    }
  }

  /**
    Comparing the number of distinct names with the length, as the move check
    does, detects exactly the sequences with a repetition.
  */
  lemma {:induction false} NamesCountIffDistinct<T>(s: seq<T>)
    ensures |Names(s)| == |s| <==> Distinct(s)
  {
    if |s| > 0 {
      var rest := s[1..];
      NamesCountIffDistinct(rest);
      NamesBound(rest);
      assert Names(s) == {s[0]} + Names(rest);
      if s[0] in rest {
        assert Names(s) == Names(rest);
        var j :| 0 <= j < |rest| && rest[j] == s[0];
        assert s[0] == s[j + 1];
      } else {
        assert |Names(s)| == 1 + |Names(rest)|;
        if Distinct(rest) {
          forall i, j | 0 <= i < j < |s| ensures s[i] != s[j] {
            if i > 0 {
              assert s[i] == rest[i - 1] && s[j] == rest[j - 1];
            } else {
              assert s[j] == rest[j - 1];
            }
          }
        } else {
          var i, j :| 0 <= i < j < |rest| && rest[i] == rest[j];
          assert s[i + 1] == s[j + 1];
        }
      }
    }
  }

  /** A sequence repeats nothing exactly when every name occurs at most once. */
  lemma {:induction false} DistinctIffCountsAtMostOne<T>(s: seq<T>)
    ensures Distinct(s) <==> forall x :: multiset(s)[x] <= 1
  {
    if |s| > 0 {
      var rest := s[1..];
      DistinctIffCountsAtMostOne(rest);
      assert s == [s[0]] + rest;
      assert multiset(s) == multiset{s[0]} + multiset(rest);
      if Distinct(s) {
        assert Distinct(rest) by {
          forall i, j | 0 <= i < j < |rest| ensures rest[i] != rest[j] {
            assert rest[i] == s[i + 1] && rest[j] == s[j + 1];
          }
        }
        assert s[0] !in rest by {
          forall j | 0 <= j < |rest| ensures rest[j] != s[0] {
            assert rest[j] == s[j + 1];
          }
        }
      } else {
        var i, j :| 0 <= i < j < |s| && s[i] == s[j];
        assert s[j] in rest;
        if i == 0 {
          assert multiset(rest)[s[0]] >= 1;
          assert multiset(s)[s[0]] >= 2;
        } else {
          assert rest[i - 1] == rest[j - 1];
          assert !Distinct(rest);
          var x :| multiset(rest)[x] > 1;
          assert multiset(s)[x] > 1;
        }
      }
    }
  }
}

=== FILE: validation.dfy ===
/** The move-list check run before a game starts: `check_moves` and `find_repeat` (TASK03.py:249-268). */
module Validation {
  import opened Seqs

  type Move = string

  /** The three problems `check_moves` reports. The repeated names travel with `RepeatedMoves`. */
  datatype MoveError = InvalidLength | InvalidNumber | RepeatedMoves(repeated: seq<Move>)

  /** A move list the game can be played with: at least three moves, an odd count, no name twice. */
  predicate ValidMoveSet(moves: seq<Move>) {
    |moves| >= 3 && |moves| % 2 == 1 && Distinct(moves)
  }

  /**
    Walks `s` in order, keeping each name the first time it is met (names in
    `seen` were met earlier) if it occurs more than once in `counts`. This is
    the order in which `Counter` lists its keys.
  */
  function Repeats(s: seq<Move>, counts: multiset<Move>, seen: set<Move>): (r: seq<Move>)
    ensures forall x :: x in r <==> x in s && x !in seen && counts[x] > 1
    ensures Distinct(r)
  {
    if |s| == 0 then []
    else
      var rest := Repeats(s[1..], counts, seen + {s[0]});
      if s[0] in seen || counts[s[0]] <= 1 then rest
      else
        assert s[0] !in rest;
        [s[0]] + rest
  }

  /**
    `find_repeat`: every name that occurs more than once, each listed once, in
    the order of its first occurrence.
  */
  function FindRepeat(moves: seq<Move>): (r: seq<Move>)
    ensures forall x :: x in r <==> multiset(moves)[x] > 1
    ensures Distinct(r)
    ensures |r| == 0 <==> Distinct(moves)
  {
    DistinctIffCountsAtMostOne(moves);
    var r := Repeats(moves, multiset(moves), {});
    assert |r| > 0 ==> r[0] in r;
    r
  }

  /** `x` occurs in `s` at some position before `j`. */
  predicate OccursBefore(s: seq<Move>, x: Move, j: int)
    requires 0 <= j <= |s|
  {
    x in s[..j]
  }

  /**
    Every name of `r` occurs in `s`, and a name listed before another in `r`
    occurs in `s` before every occurrence of that other name.
  */
  ghost predicate InFirstOccurrenceOrder(r: seq<Move>, s: seq<Move>) {
    AllIn(r, s) && OrderedByFirstOccurrence(r, s)
  }

  /** Every name of `r` occurs in `s`. */
  ghost predicate AllIn(r: seq<Move>, s: seq<Move>) {
    forall p :: 0 <= p < |r| ==> r[p] in s
  }

  /** A name listed before another in `r` occurs in `s` before every occurrence of that other name. */
  ghost predicate OrderedByFirstOccurrence(r: seq<Move>, s: seq<Move>) {
    forall p, q, j :: 0 <= p < q < |r| && 0 <= j < |s| && s[j] == r[q] ==> OccursBefore(s, r[p], j)
  }

  /** The list `ConsOrdered` speaks about: `rest` with or without the head of `s` in front. */
  function Cons(s: seq<Move>, rest: seq<Move>, keepHead: bool): seq<Move>
    requires |s| > 0
  {
    if keepHead then [s[0]] + rest else rest
  }

  /**
    An order known within the tail of `s` carries over to `s`: occurring
    before position `j - 1` of the tail is occurring before position `j` of `s`.
  */
  lemma TailPair(s: seq<Move>, rest: seq<Move>, p: int, q: int, j: int)
    requires |s| > 0 && OrderedByFirstOccurrence(rest, s[1..])
    requires 0 <= p < q < |rest| && 0 < j < |s| && s[j] == rest[q]
    ensures OccursBefore(s, rest[p], j)
  {
    var tail := s[1..];
    assert tail[j - 1] == rest[q];
    assert OccursBefore(tail, rest[p], j - 1);
    assert s[..j] == [s[0]] + tail[..j - 1];
  }

  /**
    Keeping or dropping the head in front of a list ordered by first
    occurrence in the tail gives a list ordered by first occurrence in the
    whole sequence.
  */
  lemma ConsOrdered(s: seq<Move>, rest: seq<Move>, keepHead: bool)
    requires |s| > 0 && s[0] !in rest
    requires InFirstOccurrenceOrder(rest, s[1..])
    ensures InFirstOccurrenceOrder(Cons(s, rest, keepHead), s)
  {
    var r := Cons(s, rest, keepHead);
    assert AllIn(rest, s[1..]) && OrderedByFirstOccurrence(rest, s[1..]);
    forall p | 0 <= p < |r| ensures r[p] in s {
      ConsMember(s, rest, keepHead, p);
    }
    forall p, q, j | 0 <= p < q < |r| && 0 <= j < |s| && s[j] == r[q]
      ensures OccursBefore(s, r[p], j)
    {
      ConsPair(s, rest, keepHead, p, q, j);
    }
  }

  lemma ConsMember(s: seq<Move>, rest: seq<Move>, keepHead: bool, p: int)
    requires |s| > 0 && AllIn(rest, s[1..])
    requires 0 <= p < |Cons(s, rest, keepHead)|
    ensures Cons(s, rest, keepHead)[p] in s
  {
    var off := if keepHead then 1 else 0;
    if p >= off {
      var x := rest[p - off];
      assert Cons(s, rest, keepHead)[p] == x;
      var i :| 0 <= i < |s| - 1 && s[1..][i] == x;
      assert s[i + 1] == x;
    }
  }

  lemma ConsPair(s: seq<Move>, rest: seq<Move>, keepHead: bool, p: int, q: int, j: int)
    requires |s| > 0 && s[0] !in rest
    requires OrderedByFirstOccurrence(rest, s[1..])
    requires 0 <= p < q < |Cons(s, rest, keepHead)| && 0 <= j < |s| && s[j] == Cons(s, rest, keepHead)[q]
    ensures OccursBefore(s, Cons(s, rest, keepHead)[p], j)
  {
    var off := if keepHead then 1 else 0;
    var r := Cons(s, rest, keepHead);
    assert r[q] == rest[q - off];
    assert j > 0;
    if p >= off {
      assert r[p] == rest[p - off];
      TailPair(s, rest, p - off, q - off, j);
    } else {
      assert s[..j][0] == r[p];
    }
  }

  /** The names `Repeats` keeps appear in the order of their first occurrence in `s`. */
  lemma {:induction false} RepeatsInFirstOccurrenceOrder(s: seq<Move>, counts: multiset<Move>, seen: set<Move>)
    ensures InFirstOccurrenceOrder(Repeats(s, counts, seen), s)
  {
    if |s| > 0 {
      var rest := Repeats(s[1..], counts, seen + {s[0]});
      RepeatsInFirstOccurrenceOrder(s[1..], counts, seen + {s[0]});
      var keepHead := !(s[0] in seen || counts[s[0]] <= 1);
      assert Repeats(s, counts, seen) == Cons(s, rest, keepHead);
      ConsOrdered(s, rest, keepHead);
    }
  }

  /** A name met before the first occurrence of another has the smaller first index. */
  lemma FirstIndexBefore(s: seq<Move>, x: Move, y: Move)
    requires y in s && OccursBefore(s, x, FirstIndex(s, y))
    ensures x in s && FirstIndex(s, x) < FirstIndex(s, y)
  {
    var i :| 0 <= i < FirstIndex(s, y) && s[..FirstIndex(s, y)][i] == x;
    assert s[i] == x;
  }

  /** `find_repeat` lists the repeated names in the order they first appear in the move list. */
  lemma FindRepeatOrder(moves: seq<Move>)
    ensures InFirstOccurrenceOrder(FindRepeat(moves), moves)
    ensures var r := FindRepeat(moves);
      forall p, q :: 0 <= p < q < |r| ==> FirstIndex(moves, r[p]) < FirstIndex(moves, r[q])
  {
    var r := FindRepeat(moves);
    RepeatsInFirstOccurrenceOrder(moves, multiset(moves), {});
    forall p, q | 0 <= p < q < |r| ensures FirstIndex(moves, r[p]) < FirstIndex(moves, r[q]) {
      var j := FirstIndex(moves, r[q]);
      assert moves[j] == r[q];
      FirstIndexBefore(moves, r[p], r[q]);
    }
  }

  /** Position of each error kind in the order `check_moves` appends them. */
  function Rank(e: MoveError): nat {
    match e
    case InvalidLength => 0
    case InvalidNumber => 1
    case RepeatedMoves(_) => 2
  }

  /**
    `check_moves`, returning the errors it would print before exiting. Every
    applicable error is reported, in a fixed order, each at most once; the
    duplicate test compares the number of distinct names with the length.
  */
  function CheckMoves(moves: seq<Move>): (errors: seq<MoveError>)
    ensures InvalidLength in errors <==> |moves| < 3
    ensures InvalidNumber in errors <==> |moves| % 2 == 0 && |moves| > 0
    ensures (exists e :: e in errors && e.RepeatedMoves?) <==> !Distinct(moves)
    ensures forall e :: e in errors && e.RepeatedMoves? ==> e.repeated == FindRepeat(moves)
    ensures forall p, q :: 0 <= p < q < |errors| ==> Rank(errors[p]) < Rank(errors[q])
    ensures errors == [] <==> ValidMoveSet(moves)
  {
    NamesCountIffDistinct(moves);
    var errors :=
    (if |moves| < 3 then [InvalidLength] else [])
    + (if |moves| % 2 == 0 && |moves| > 0 then [InvalidNumber] else [])
    + (if |Names(moves)| != |moves| then [RepeatedMoves(FindRepeat(moves))] else []);
    assert !Distinct(moves) ==> errors[|errors| - 1] == RepeatedMoves(FindRepeat(moves));
    errors
  }

  /** Two moves are too few and an even count: both errors are reported. */
  lemma CheckMovesTwoMoves()
    ensures CheckMoves(["Rock", "Paper"]) == [InvalidLength, InvalidNumber]
  {
    var two := ["Rock", "Paper"];
    assert Distinct(two);
    NamesCountIffDistinct(two);
  }

  /** Four distinct moves are only an even count. */
  lemma CheckMovesFourMoves()
    ensures CheckMoves(["Rock", "Paper", "Scissors", "Lizard"]) == [InvalidNumber]
  {
    var four := ["Rock", "Paper", "Scissors", "Lizard"];
    assert Distinct(four);
    NamesCountIffDistinct(four);
  }

  /** A repeated name is reported, carrying the name once. */
  lemma CheckMovesRepeated()
    ensures CheckMoves(["Rock", "Rock", "Scissors"]) == [RepeatedMoves(["Rock"])]
  {
    var dup := ["Rock", "Rock", "Scissors"];
    assert !Distinct(dup) by { assert dup[0] == dup[1]; }
    NamesCountIffDistinct(dup);
    var m := multiset(dup);
    assert m == multiset{"Rock", "Rock", "Scissors"};
    assert m["Rock"] == 2 && m["Scissors"] == 1;
    assert dup[1..] == ["Rock", "Scissors"] && dup[1..][1..] == ["Scissors"];
    assert Repeats(["Scissors"], m, {"Rock"}) == [];
    assert {"Rock"} + {"Rock"} == {"Rock"};
    assert Repeats(["Rock", "Scissors"], m, {"Rock"}) == [];
    var none: set<Move> := {};
    assert none + {"Rock"} == {"Rock"};
    assert Repeats(dup, m, none) == ["Rock"];
  }

  /** The empty list is only too short: an empty count is not reported as even. */
  lemma CheckMovesEmpty()
    ensures CheckMoves([]) == [InvalidLength]
  {
    var none: seq<Move> := [];
    NamesCountIffDistinct(none);
  }
}

=== FILE: wrappers.dfy ===
/** Failure-carrying result type used where the program prints an error and stops or re-prompts. */
module Wrappers {

  /** Either a value or the error that prevented computing it. */
  datatype Result<+R, +E> = Success(value: R) | Failure(error: E)
}
